=== FILE: README.md ===
# fuzzy-reasoner: solver statistics and prover front end in Dafny

This project models two parts of the fuzzy SLD-resolution prover
`fuzzy_reasoner`:

- **`SolverStats`** (`fuzzy_reasoner/meta/stats.py`), the explosion monitor
  the resolution engine reports each rule firing to. It keeps a global fire
  counter and a per-predicate counter. Every 10,000th fire, at most once per
  configured period, it recomputes the ten most-fired predicates. Two
  heuristics flag predicates for sampling: one for a combinatorial explosion
  and one for a long run. A flagged predicate's firings are sampled with
  probability 1/51 as redacted text with its newlines (`\n`) removed. Once ten samples are buffered,
  the buffer, the flags and the per-predicate counters are cleared.
- **`SLDProver`'s front end** (`fuzzy_reasoner/prover/SLDProver.py`).
  Knowledge normalisation turns bare atoms into facts and removes
  duplicates. The prover keeps its configuration. Per call it normalises the
  goal and joins any extra knowledge to the base rules without changing
  them. It ranks the proofs the engine returns, best score first, and
  `prove` returns the best one.

Modules:

| file | module | contents |
|---|---|---|
| `wrappers.dfy` | `Wrappers` | `Option` |
| `sorting.dfy` | `Sorting` | stable non-increasing sort (`sorted(..., reverse=True)`), `[:n]`, stability and top-n lemmas |
| `terms.dfy` | `Terms` | stand-ins for atoms and rules: structural values with a head predicate symbol |
| `redact.dfy` | `Redact` | `repr(rule).replace("\n", "")` followed by the `re.sub` that elides numeric vectors |
| `stats.dfy` | `Stats` | the `SolverStats` state and its transitions, invariant, heuristics and rate-limit lemmas |
| `prover.dfy` | `Prover` | `process_knowledge`, the constructor, goal normalisation, the rule union, `prove_all`, `prove` |

Modelling choices:

- The monitor is a record (`Stats.Stats`), and `rule_fired` and
  `check_debug` are pure transitions. The wall clock is a parameter `now`.
  The draw `random.randint(0, 50)` is a parameter of type `Draw`, which is
  0..50 inclusive; a sample is taken when it is 0.
- `rule_stats` is a `defaultdict`. It is modelled as its item list in
  insertion order, because `sorted` is stable and so ties among the top
  firings follow that order. `Count` reads a missing key as 0.
- Python changes the object before an exception escapes. A transition
  therefore returns `Returned(state)` or `Raised(error, state)`, and
  `state` is the object as the exception left it. `check_debug` raises
  `IndexError` in two cases. Reading `firings[0]` fails when no predicate
  is counted, none since construction or since the last flush, which only
  a direct call without `rule_fired` can reach. Reading `firings[1]` fails when the only counted predicate has
  fired more than 100,000 times. It raises `AttributeError` when called
  without a rule while flags exist and the draw is 0. `rule_fired` can only
  raise the second `IndexError`.
- The resolution engine `recurse` is a function parameter of type
  `Prover.Engine` that returns the terminal nodes. The nodes are an opaque
  type `N`, and their score is a parameter `score: N -> real`. The
  similarity function is an opaque value of type `S`. The scope minted by
  `generate_variable_scope()` is a parameter. Scores are `real` keys, and
  only their order is used.
- The prover's constructor checks none of its arguments, the similarity
  thresholds included, and neither does `Prover.NewProver`.
- The explosion test is the strict `runner_up * 50 < top`
  (`fuzzy_reasoner/meta/stats.py:50`), which `Stats.Exploding` uses.

## Model

| member | source | states |
|---|---|---|
| Stats.Init | fuzzy_reasoner/meta/stats.py:11-20 | a new monitor satisfies the invariant, has no fires, has an empty counter, so every predicate's count reads 0, holds no snapshot, flags or samples, keeps the period it is given, and stamps both the last recomputation and the solve start with the construction time |
| Stats.DefaultStats | fuzzy_reasoner/meta/stats.py:11 | without an argument the period is one second; the rest is as for a new monitor, the counter empty included |
| Stats.Tick | fuzzy_reasoner/meta/stats.py:39-40 | every call counts one more fire; the first fire restarts the solve clock at the current time and later fires leave it; nothing else changes |
| Stats.Bump | fuzzy_reasoner/meta/stats.py:29 | counting a firing raises that predicate's count by exactly 1 and leaves every other count unchanged; an existing key keeps its place and a new key is appended with count 1 |
| Stats.BumpKeys | fuzzy_reasoner/meta/stats.py:29 | counting a firing adds its predicate to the counter's keys and keeps the keys distinct, as a dictionary's are |
| Stats.TopFirings | fuzzy_reasoner/meta/stats.py:44-45 | the snapshot has min(10, #predicates) entries, is non-increasing by count, is a sub-multiset of the counter's items, and no item left out has a higher count than any entry kept |
| Stats.NewFlags | fuzzy_reasoner/meta/stats.py:50-57 | an index error happens exactly when the snapshot is empty or has one entry above 100,000; otherwise the top predicate is flagged when its count exceeds 100,000 and 50 times the runner-up's count, the top three are flagged when more than 30 s have passed and there are more than three entries, and nothing else is flagged |
| Stats.Samples | fuzzy_reasoner/meta/stats.py:62-66 | one sample per occurrence of the fired predicate among the flags (duplicate flags give duplicate samples), each the redacted text of the rule |
| Stats.SampleStep | fuzzy_reasoner/meta/stats.py:60-72 | sampling raises only without a rule, with flags present and draw 0; a buffer reaching 10 samples empties flags, samples and counters; otherwise only the new samples are appended; the buffer stays below 10 |
| Stats.Report | fuzzy_reasoner/meta/stats.py:41-57 | the snapshot and the timestamp change only when the fire count is a multiple of 10,000 and more than one period has passed; the new flags are appended to the old ones, and the index error leaves the flags as they were; counters and samples are untouched |
| Stats.CheckDebug | fuzzy_reasoner/meta/stats.py:33-72 | each call adds exactly 1 to `fires`; the solve start time is reset only on the first fire; a recomputation sets the timestamp to `now` and the snapshot to the top firings, and otherwise both are kept; it raises the index error exactly when a recomputation finds no first entry or an exploding single entry; with a rule it raises nothing else; without a rule, with flags and a draw of 0 it raises the attribute error unless the index error came first, and only then; counters change only by a full flush; a buffer below 10 stays below 10 |
| Stats.BumpedTopMissing | fuzzy_reasoner/meta/stats.py:29-50 | after counting a firing, the snapshot is too short for the explosion test exactly when the fired predicate is the only one counted and its count exceeds 100,000 |
| Stats.RuleFired | fuzzy_reasoner/meta/stats.py:22-31 | a firing adds 1 to `fires` and raises only `IndexError`, exactly in the single-predicate explosion case; unless the call flushes, the fired predicate's count rises by 1 and no other count changes |
| Stats.CheckDebugKeepsValid | fuzzy_reasoner/meta/stats.py:39-72 | `check_debug` preserves the invariant: distinct counter keys, a snapshot of at most 10 sorted entries, fewer than 10 buffered samples, none containing a newline (`\n`) |
| Stats.RuleFiredKeepsValid | fuzzy_reasoner/meta/stats.py:22-31 | `rule_fired` preserves the same invariant |
| Stats.FlagsReachSampling | fuzzy_reasoner/meta/stats.py:41-57 | with a rule and a recomputation, every predicate a heuristic flags ends up among the flags unless the same call flushes |
| Stats.ExplosionStartsSampling | fuzzy_reasoner/meta/stats.py:50-52 | a top predicate above 100,000 that has more than 50 times the runner-up's count is flagged after a recomputing call, unless that call flushes |
| Stats.ExplosionFlagsTop | fuzzy_reasoner/meta/stats.py:50-52 | when the explosion test holds, the top predicate is among the new flags |
| Stats.LongRunFlagsTopThree | fuzzy_reasoner/meta/stats.py:53-57 | when the long-run test holds, each of the top three predicates is among the new flags |
| Stats.LongRunStartsSampling | fuzzy_reasoner/meta/stats.py:53-57 | after more than 30 s with more than three predicates in the snapshot, the top three are flagged by a recomputing call, unless that call flushes |
| Stats.RateLimited | fuzzy_reasoner/meta/stats.py:41-48 | over any run of firings, each recomputation comes more than one period after the previous one, and the first more than one period after the starting timestamp |
| Stats.RunKeepsValid | fuzzy_reasoner/meta/stats.py:22-72 | every state a run of firings reaches satisfies the invariant |
| Redact.StripNewlines | fuzzy_reasoner/meta/stats.py:65 | `replace("\n", "")` leaves no `\n`, keeps every other character, and changes nothing in text without `\n`; other separators such as `\r` are kept |
| Redact.StripNewlinesConcat | fuzzy_reasoner/meta/stats.py:65 | removing `\n` from joined text is removing it from each part and joining the results |
| Redact.Substitute | fuzzy_reasoner/meta/stats.py:65 | the vector-eliding substitution adds no `\n` and changes nothing in text without `[` |
| Redact.ElidesRun | fuzzy_reasoner/meta/stats.py:65 | at the start of the scanned text, a `[`, one or more characters of the class `[0-9-\s\.,e\+]` and a `]` are replaced by `[...]`, and scanning goes on after the `]` |
| Redact.SubstituteSplit | fuzzy_reasoner/meta/stats.py:65 | the substitution of joined text is the substitution of each part when the second part starts with `[`: no match runs across that point |
| Redact.SampleText | fuzzy_reasoner/meta/stats.py:65 | a recorded sample contains no newline (`\n`) |
| Redact.ElidesVector | fuzzy_reasoner/meta/stats.py:65 | a bracketed numeric vector anywhere in a rule's `repr`, printed over any number of lines, is recorded as `[...]` between the redacted text before it and the redacted text after it, provided something other than `\n` is inside the brackets |
| Sorting.SortDesc | fuzzy_reasoner/prover/SLDProver.py:67 | `sorted(..., reverse=True)` yields a non-increasing permutation of its input |
| Sorting.SortDescStable | fuzzy_reasoner/prover/SLDProver.py:67 | the sort is stable: elements with equal keys keep their input order |
| Sorting.Take | fuzzy_reasoner/meta/stats.py:45 | `[:n]` is the prefix of length n, or the whole list when it is shorter |
| Sorting.TopPrefix | fuzzy_reasoner/meta/stats.py:44-45 | the first n elements of the sorted sequence are a top-n selection |
| Prover.ProcessKnowledge | fuzzy_reasoner/prover/SLDProver.py:70-73 | the result holds each item's rule, whether the item was a rule or a bare atom made into a fact, holds nothing else, and is no larger than the input |
| Prover.ProcessEnumeration | fuzzy_reasoner/prover/SLDProver.py:70-73 | processing any listing of a rule set gives back that set |
| Prover.ProcessIdempotent | fuzzy_reasoner/prover/SLDProver.py:70-73 | processing already processed knowledge again changes nothing |
| Prover.DuplicateCollapses | fuzzy_reasoner/prover/SLDProver.py:70-73 | adding a rule already present, or an atom whose fact is present, leaves the rule set and its size unchanged |
| Prover.NewProver | fuzzy_reasoner/prover/SLDProver.py:22-34 | the constructor keeps depth, both thresholds and the similarity function as given, and its rules are exactly the rules of the knowledge items |
| Prover.DefaultProver | fuzzy_reasoner/prover/SLDProver.py:24-28 | the defaults are no rules, depth 10, thresholds 0.5 and the cosine similarity |
| Prover.AdjustGoal | fuzzy_reasoner/prover/SLDProver.py:45-49 | a given goal passes through unchanged, and a bare atom is wrapped with the fresh scope |
| Prover.AdjustGoalIdempotent | fuzzy_reasoner/prover/SLDProver.py:45-49 | normalising an already normalised goal changes nothing |
| Prover.ActiveRules | fuzzy_reasoner/prover/SLDProver.py:50-54 | the search uses the base rules plus exactly the rules of non-empty extra knowledge, and exactly the base rules when the extra knowledge is missing or empty |
| Prover.SearchWiring | fuzzy_reasoner/prover/SLDProver.py:55-63 | the engine is called with the normalised goal, the prover's depth, similarity function and both thresholds, and the active rules; a given goal without extra knowledge is searched against exactly the prover's own rules, and a bare atom is searched under the fresh scope |
| Prover.SearchScopeUnused | fuzzy_reasoner/prover/SLDProver.py:45-63 | for a given goal the search does not depend on the scope that would have been minted |
| Prover.Wrap | fuzzy_reasoner/prover/SLDProver.py:66 | one proof per node, in order, each carrying its node's score |
| Prover.ProveAll | fuzzy_reasoner/prover/SLDProver.py:42-67 | the result is empty exactly when the engine returns no nodes; otherwise it is a permutation of the nodes' proofs, non-increasing by score, with equal scores in engine order |
| Prover.Prove | fuzzy_reasoner/prover/SLDProver.py:36-40 | `prove` returns nothing exactly when the engine finds nothing; otherwise it returns the first proof of `prove_all`, whose score is at least that of every proof and every node found, and which belongs to the first node, in the engine's order, that reaches that score |

## Left out

- The resolution engine `recurse`, unification, `ProofState`, `Goal`'s internals, `Proof`'s scoring and `generate_variable_scope` are not part of this model. The engine, the score and the fresh scope are parameters.
- The term, atom and rule classes are not part of this model. `Terms` keeps only structural equality, the head predicate symbol, and head and body.
- The similarity functions, including `cosine_similarity`, and all floating-point arithmetic on scores are left out. Scores are abstract ordered `real` keys.
- `repr(rule)` belongs to the rule class and is an input string.
- Logging (`logzero`, `print_top_firings`, the warnings and the flushed samples sent to the log) is output only and is left out.
- The unused `pred_stats` map is left out.
- Stats.CheckDebug: reads the clock once per call. The source calls `time.time()` up to four times in one call, and the model uses one reading for all of them. `Stats.Init` likewise uses one reading for both timestamps.
- Stats.TopFirings: the contract does not state the order among equal counts. The order comes from the stable sort, whose stability `Sorting.SortDescStable` states for the whole sorted list.
- Prover.ProveAll: nothing is stated about score bounds or the similarity floors. Those belong to the engine and `Proof`, which are not modelled.

=== FILE: prover.dfy ===
/** The front end of `SLDProver` in fuzzy_reasoner/prover/SLDProver.py:
    knowledge normalisation, the prover's configuration, goal
    normalisation, the per-call rule union and the ranking of the proofs
    the resolution engine finds.

    The engine (`recurse`), the proof-state, goal and proof classes, the
    scope generator and the similarity function are not part of this
    model. The engine and the proof score are parameters, the similarity
    function is an opaque value of type `S`, the engine's result nodes are
    values of an opaque type `N`, and the scope that
    `generate_variable_scope()` would mint is a parameter. */
module Prover {
  import opened Wrappers
  import opened Terms
  import Sorting

  // ---------------------------------------------------------------------
  // Knowledge

  /** An element of a knowledge collection: a rule, or a bare atom that
      stands for a fact. */
  datatype KnowledgeItem = RuleItem(rule: Rule) | AtomItem(atom: Atom)

  /** The knowledge handed to the prover, in the order given. */
  type Knowledge = seq<KnowledgeItem>

  /** `item if isinstance(item, Rule) else Rule(item)`. */
  function AsRule(item: KnowledgeItem): Rule {
    match item
    case RuleItem(r) => r
    case AtomItem(a) => Fact(a)
  }

  /** `process_knowledge`: the set of rules the items stand for. */
  function ProcessKnowledge(k: Knowledge): (rs: set<Rule>)
    ensures forall i :: 0 <= i < |k| ==> AsRule(k[i]) in rs
    ensures forall r :: r in rs ==> exists i :: 0 <= i < |k| && AsRule(k[i]) == r
    ensures |rs| <= |k|
    decreases |k|
  {
    if |k| == 0 then {}
    else
      var rest := ProcessKnowledge(k[1..]);
      TailWitness(k, rest);
      {AsRule(k[0])} + rest
  }

  /** A rule some item of `k[1..]` stands for is a rule some item of `k`
      stands for. */
  lemma TailWitness(k: Knowledge, rest: set<Rule>)
    requires |k| > 0
    requires forall r :: r in rest ==> exists j :: 0 <= j < |k[1..]| && AsRule(k[1..][j]) == r
    ensures forall r :: r in rest ==> exists i :: 0 <= i < |k| && AsRule(k[i]) == r
  {
    forall r | r in rest ensures exists i :: 0 <= i < |k| && AsRule(k[i]) == r {
      var j :| 0 <= j < |k[1..]| && AsRule(k[1..][j]) == r;
      assert AsRule(k[j + 1]) == r;
    }
  }

  /** `k` lists exactly the rules of `rs`, each as a rule item, in some
      order and possibly more than once: what iterating over a processed
      rule set yields. */
  ghost predicate Enumerates(k: Knowledge, rs: set<Rule>) {
    && (forall i :: 0 <= i < |k| ==> k[i].RuleItem? && k[i].rule in rs)
    && (forall r :: r in rs ==> RuleItem(r) in k)
  }

  /** Processing an enumeration of a rule set gives back that set. */
  lemma ProcessEnumeration(k: Knowledge, rs: set<Rule>)
    requires Enumerates(k, rs)
    ensures ProcessKnowledge(k) == rs
  {
    forall r | r in rs ensures r in ProcessKnowledge(k) {
      var i :| 0 <= i < |k| && k[i] == RuleItem(r);
      assert AsRule(k[i]) == r;
    }
  }

  /** Idempotence: processing the already processed knowledge again, in
      whatever order it is iterated, changes nothing. */
  lemma ProcessIdempotent(k: Knowledge, again: Knowledge)
    requires Enumerates(again, ProcessKnowledge(k))
    ensures ProcessKnowledge(again) == ProcessKnowledge(k)
  {
    ProcessEnumeration(again, ProcessKnowledge(k));
  }

  /** Duplicates collapse: an item whose rule is already present (the same
      rule again, or a bare atom next to its fact) adds nothing. */
  lemma {:induction false} DuplicateCollapses(k: Knowledge, item: KnowledgeItem)
    requires AsRule(item) in ProcessKnowledge(k)
    ensures ProcessKnowledge(k + [item]) == ProcessKnowledge(k)
    ensures |ProcessKnowledge(k + [item])| == |ProcessKnowledge(k)|
  {
    var both := k + [item];
    forall r | r in ProcessKnowledge(both) ensures r in ProcessKnowledge(k) {
      var i :| 0 <= i < |both| && AsRule(both[i]) == r;
      if i < |k| {
        assert both[i] == k[i];
      }
    }
    forall r | r in ProcessKnowledge(k) ensures r in ProcessKnowledge(both) {
      var i :| 0 <= i < |k| && AsRule(k[i]) == r;
      assert both[i] == k[i];
    }
  }

  // ---------------------------------------------------------------------
  // The prover

  const DefaultMaxProofDepth: int := 10
  const DefaultMinSimilarityThreshold: real := 0.5
  const DefaultMinOverallSimilarity: real := 0.5

  /** The configuration of an `SLDProver`, with `rules` the processed
      knowledge. `similarityFunc` is `None` when the caller passes `None`. */
  datatype Prover<S> = Prover(
    maxProofDepth: int,
    minSimilarityThreshold: real,
    minOverallSimilarity: real,
    similarityFunc: Option<S>,
    rules: set<Rule>)

  /** `SLDProver(knowledge, max_proof_depth, min_similarity_threshold,
      min_overall_similarity, similarity_func)`. No argument is checked. */
  function NewProver<S>(
    knowledge: Knowledge,
    maxProofDepth: int,
    minSimilarityThreshold: real,
    minOverallSimilarity: real,
    similarityFunc: Option<S>): (p: Prover<S>)
    ensures p.maxProofDepth == maxProofDepth
    ensures p.minSimilarityThreshold == minSimilarityThreshold
    ensures p.minOverallSimilarity == minOverallSimilarity
    ensures p.similarityFunc == similarityFunc
    ensures forall r :: r in p.rules <==> exists i :: 0 <= i < |knowledge| && AsRule(knowledge[i]) == r
  {
    Prover(maxProofDepth, minSimilarityThreshold, minOverallSimilarity, similarityFunc,
           ProcessKnowledge(knowledge))
  }

  /** `SLDProver()`: no rules, depth 10, both thresholds 0.5, and the
      default similarity function `cosine`. */
  function DefaultProver<S>(cosine: S): (p: Prover<S>)
    ensures p.rules == {}
    ensures p.maxProofDepth == 10
    ensures p.minSimilarityThreshold == 0.5 && p.minOverallSimilarity == 0.5
    ensures p.similarityFunc == Some(cosine)
  {
    NewProver([], DefaultMaxProofDepth, DefaultMinSimilarityThreshold, DefaultMinOverallSimilarity, Some(cosine))
  }

  // ---------------------------------------------------------------------
  // Goals

  /** A variable-scope token minted by `generate_variable_scope()`. */
  type Scope = string

  /** An atom to resolve, tagged with the scope its variables live in. */
  datatype Goal = Goal(atom: Atom, scope: Scope)

  /** The `goal` argument of `prove`/`prove_all`: a `Goal` or a bare atom. */
  datatype GoalArg = GoalGiven(goal: Goal) | AtomGiven(atom: Atom)

  /** The goal the search starts from: a given goal as it is, a bare atom
      under the fresh scope `scope`. */
  function AdjustGoal(g: GoalArg, scope: Scope): (r: Goal)
    ensures g.GoalGiven? ==> r == g.goal
    ensures g.AtomGiven? ==> r.atom == g.atom && r.scope == scope
  {
    match g
    case GoalGiven(goal) => goal
    case AtomGiven(a) => Goal(a, scope)
  }

  /** Normalising a goal twice is normalising it once: the second pass
      sees a `Goal` and passes it through, whatever scope it is offered. */
  lemma AdjustGoalIdempotent(g: GoalArg, scope: Scope, other: Scope)
    ensures AdjustGoal(GoalGiven(AdjustGoal(g, scope)), other) == AdjustGoal(g, scope)
  {
  }

  // ---------------------------------------------------------------------
  // The search and its results

  /** Python truthiness of `extra_knowledge`: given and non-empty. */
  predicate HasExtra(extra: Option<Knowledge>) {
    extra.Some? && |extra.value| > 0
  }

  /** The rules one call searches: the prover's rules, joined by the extra
      knowledge when there is any. The prover's own rule set is only read. */
  function ActiveRules<S>(p: Prover<S>, extra: Option<Knowledge>): (rs: set<Rule>)
    ensures p.rules <= rs
    ensures !HasExtra(extra) ==> rs == p.rules
    ensures HasExtra(extra) ==> forall r :: r in rs <==>
      r in p.rules || exists i :: 0 <= i < |extra.value| && AsRule(extra.value[i]) == r
  {
    if HasExtra(extra) then p.rules + ProcessKnowledge(extra.value) else p.rules
  }

  /** The resolution engine `recurse(goal, max_proof_depth, ProofState(),
      rules, similarity_func, min_similarity_threshold,
      min_overall_similarity)`, reduced to the terminal nodes it returns
      (the fresh `ProofState()` argument is part of the engine). */
  type Engine<!S, N> = (Goal, int, set<Rule>, Option<S>, real, real) -> seq<N>

  /** The nodes the engine returns for one `prove_all` call. */
  function Search<S, N>(p: Prover<S>, goal: GoalArg, extra: Option<Knowledge>, scope: Scope,
                        recurse: Engine<S, N>): seq<N>
  {
    recurse(AdjustGoal(goal, scope), p.maxProofDepth, ActiveRules(p, extra),
            p.similarityFunc, p.minSimilarityThreshold, p.minOverallSimilarity)
  }

  /** What the engine is given: a given goal without extra knowledge is
      searched against exactly the prover's own rules, and a bare atom is
      searched under the fresh scope; the depth, the similarity function and
      both thresholds are the prover's. */
  lemma SearchWiring<S, N>(p: Prover<S>, goal: GoalArg, extra: Option<Knowledge>, scope: Scope,
                           recurse: Engine<S, N>)
    ensures goal.GoalGiven? && !HasExtra(extra) ==>
      Search(p, goal, extra, scope, recurse)
        == recurse(goal.goal, p.maxProofDepth, p.rules,
                   p.similarityFunc, p.minSimilarityThreshold, p.minOverallSimilarity)
    ensures goal.AtomGiven? ==>
      Search(p, goal, extra, scope, recurse)
        == recurse(Goal(goal.atom, scope), p.maxProofDepth, ActiveRules(p, extra),
                   p.similarityFunc, p.minSimilarityThreshold, p.minOverallSimilarity)
  {
  }

  /** The fresh scope matters only for a bare atom: a given goal is
      searched the same way whatever scope is minted. */
  lemma SearchScopeUnused<S, N>(p: Prover<S>, goal: GoalArg, extra: Option<Knowledge>,
                                scope: Scope, other: Scope, recurse: Engine<S, N>)
    requires goal.GoalGiven?
    ensures Search(p, goal, extra, scope, recurse) == Search(p, goal, extra, other, recurse)
  {
  }

  /** A successful derivation with its overall similarity score. */
  datatype Proof<N> = Proof(node: N, similarityScore: real)

  /** `[Proof(node) for node in nodes]`, each with its score. */
  function Wrap<N>(nodes: seq<N>, score: N -> real): (r: seq<Proof<N>>)
    ensures |r| == |nodes|
    ensures forall i :: 0 <= i < |r| ==> r[i].node == nodes[i] && r[i].similarityScore == score(nodes[i])
  {
    seq(|nodes|, i requires 0 <= i < |nodes| => Proof(nodes[i], score(nodes[i])))
  }

  function ScoreKey<N>(pr: Proof<N>): real {
    pr.similarityScore
  }

  /** `prove_all(goal, extra_knowledge)`: the proofs of the nodes the
      engine finds, best score first; proofs of equal score keep the order
      the engine returned them in, since Python's sort is stable. */
  function ProveAll<S, N>(p: Prover<S>, goal: GoalArg, extra: Option<Knowledge>, scope: Scope,
                          recurse: Engine<S, N>, score: N -> real): (r: seq<Proof<N>>)
    ensures |r| == 0 <==> |Search(p, goal, extra, scope, recurse)| == 0
    ensures multiset(r) == multiset(Wrap(Search(p, goal, extra, scope, recurse), score))
    ensures Sorting.SortedDesc(r, ScoreKey)
    ensures forall pr :: pr in r ==>
              (pr.node in Search(p, goal, extra, scope, recurse) && pr.similarityScore == score(pr.node))
    ensures forall k: real :: Sorting.WithKey(r, ScoreKey, k)
                           == Sorting.WithKey(Wrap(Search(p, goal, extra, scope, recurse), score), ScoreKey, k)
  {
    var nodes := Search(p, goal, extra, scope, recurse);
    if |nodes| == 0 then []
    else
      var proofs := Wrap(nodes, score);
      var r := Sorting.SortDesc(proofs, ScoreKey);
      assert forall pr :: pr in r ==> pr in multiset(proofs);
      assert forall k: real :: Sorting.WithKey(r, ScoreKey, k) == Sorting.WithKey(proofs, ScoreKey, k) by {
        forall k: real ensures Sorting.WithKey(r, ScoreKey, k) == Sorting.WithKey(proofs, ScoreKey, k) {
          Sorting.SortDescStable(proofs, ScoreKey, k);
        }
      }
      r
  }

  /** `prove(goal, extra_knowledge)`: the best proof, if there is one. */
  function Prove<S, N>(p: Prover<S>, goal: GoalArg, extra: Option<Knowledge>, scope: Scope,
                       recurse: Engine<S, N>, score: N -> real): (r: Option<Proof<N>>)
    ensures r.None? <==> |Search(p, goal, extra, scope, recurse)| == 0
    ensures r.Some? ==> r.value in ProveAll(p, goal, extra, scope, recurse, score)
    ensures r.Some? ==> forall pr :: pr in ProveAll(p, goal, extra, scope, recurse, score)
                           ==> pr.similarityScore <= r.value.similarityScore
    ensures r.Some? ==> forall n :: n in Search(p, goal, extra, scope, recurse)
                           ==> score(n) <= r.value.similarityScore
    ensures r.Some? ==> r.value == ProveAll(p, goal, extra, scope, recurse, score)[0]
    ensures r.Some? ==> EngineFirstBest(Search(p, goal, extra, scope, recurse), score, r.value)
  {
    var all := ProveAll(p, goal, extra, scope, recurse, score);
    if |all| > 0 then
      var nodes := Search(p, goal, extra, scope, recurse);
      var proofs := Wrap(nodes, score);
      assert forall n :: n in nodes ==> score(n) <= all[0].similarityScore by {
        forall n | n in nodes ensures score(n) <= all[0].similarityScore {
          var i :| 0 <= i < |nodes| && nodes[i] == n;
          assert proofs[i] in multiset(all);
          var j :| 0 <= j < |all| && all[j] == proofs[i];
          assert ScoreKey(all[0]) >= ScoreKey(all[j]);
        }
      }
      FirstIsEngineFirst(nodes, score, all);
      Some(all[0])
    else None
  }

  /** `best` is the proof of the first node, in the engine's order, that
      reaches the top score: every earlier node scores strictly less. */
  ghost predicate EngineFirstBest<N>(nodes: seq<N>, score: N -> real, best: Proof<N>) {
    exists i :: 0 <= i < |nodes| && best == Proof(nodes[i], score(nodes[i]))
      && forall j :: 0 <= j < i ==> score(nodes[j]) < score(nodes[i])
  }

  /** The head of a ranking that keeps its top score class in engine
      order, and whose score no node exceeds, is the engine-first best
      proof. */
  lemma FirstIsEngineFirst<N>(nodes: seq<N>, score: N -> real, all: seq<Proof<N>>)
    requires |all| > 0
    requires Sorting.WithKey(all, ScoreKey, ScoreKey(all[0]))
          == Sorting.WithKey(Wrap(nodes, score), ScoreKey, ScoreKey(all[0]))
    requires forall n :: n in nodes ==> score(n) <= all[0].similarityScore
    ensures EngineFirstBest(nodes, score, all[0])
  {
    var proofs := Wrap(nodes, score);
    var k := ScoreKey(all[0]);
    Sorting.WithKeyHead(all, ScoreKey);
    Sorting.WithKeyFirst(proofs, ScoreKey, k);
    var i :| 0 <= i < |proofs| && proofs[i] == Sorting.WithKey(proofs, ScoreKey, k)[0] && ScoreKey(proofs[i]) == k
             && forall j :: 0 <= j < i ==> ScoreKey(proofs[j]) != k;
    assert all[0] == proofs[i];
    assert forall j :: 0 <= j < i ==> score(nodes[j]) < score(nodes[i]) by {
      forall j | 0 <= j < i ensures score(nodes[j]) < score(nodes[i]) {
        assert nodes[j] in nodes;
        assert ScoreKey(proofs[j]) == score(nodes[j]);
      }
    }
  }
}

=== FILE: redact.dfy ===
/** The text the solver statistics keep of a sampled rule:
    `re.sub(r'\[[0-9-\s\.,e\+]+\]', "[...]", repr(rule).replace("\n", ""))`
    in fuzzy_reasoner/meta/stats.py. The rule's `repr` itself belongs to the
    rule class, which is not part of this model, and is taken as input. */
module Redact {

  /** Python's `\s` in a `str` pattern: the characters `str.isspace`
      accepts. */
  predicate IsSpace(c: char) {
    || c == ' ' || ('\t' <= c <= '\r')
    || ('\U{1c}' <= c <= '\U{1f}')
    || c == '\U{85}' || c == '\U{a0}' || c == '\U{1680}'
    || ('\U{2000}' <= c <= '\U{200a}')
    || c == '\U{2028}' || c == '\U{2029}' || c == '\U{202f}' || c == '\U{205f}'
    || c == '\U{3000}'
  }

  /** The character class `[0-9-\s\.,e\+]`: digits, minus, whitespace,
      dot, comma, `e` and plus, which is what a printed numeric vector is
      made of. */
  predicate InClass(c: char) {
    ('0' <= c <= '9') || c == '-' || IsSpace(c) || c == '.' || c == ',' || c == 'e' || c == '+'
  }

  const Elided: string := "[...]"

  /** `s.replace("\n", "")`. */
  function StripNewlines(s: string): (r: string)
    ensures '\n' !in r
    ensures '\n' !in s ==> r == s
    ensures forall c :: c in s && c != '\n' ==> c in r
    decreases |s|
  {
    if |s| == 0 then ""
    else if s[0] == '\n' then StripNewlines(s[1..])
    else [s[0]] + StripNewlines(s[1..])
  }

  /** The end of the longest run of class characters starting at `i`. */
  function RunEnd(s: string, i: nat): (j: nat)
    requires i <= |s|
    ensures i <= j <= |s|
    ensures forall k :: i <= k < j ==> InClass(s[k])
    ensures j < |s| ==> !InClass(s[j])
    decreases |s| - i
  {
    if i == |s| || !InClass(s[i]) then i else RunEnd(s, i + 1)
  }

  /** The pattern matches at the start of `s` exactly when `s` opens with
      `[`, at least one class character follows, and the run of class
      characters is closed by `]`. Neither bracket is in the class, so the
      greedy `+` has only this one way to succeed, and the match ends at
      index `RunEnd(s, 1)`. */
  predicate MatchesAtStart(s: string) {
    |s| > 0 && s[0] == '[' && RunEnd(s, 1) > 1 && RunEnd(s, 1) < |s| && s[RunEnd(s, 1)] == ']'
  }

  /** `re.sub(pattern, "[...]", s)`: scanning left to right, each match is
      replaced by `[...]` and scanning resumes after it; elsewhere one
      character is copied and scanning moves on by one. */
  function Substitute(s: string): (r: string)
    ensures '\n' !in s ==> '\n' !in r
    ensures '[' !in s ==> r == s
    decreases |s|
  {
    if |s| == 0 then ""
    else if MatchesAtStart(s) then
      Elided + Substitute(s[RunEnd(s, 1) + 1..])
    else [s[0]] + Substitute(s[1..])
  }

  /** The text recorded for one sampled firing of a rule whose `repr` is
      `repr`: it contains no newline (`\n`). Other line separators such as
      `\r` are kept unless they lie inside an elided vector. */
  function SampleText(repr: string): (r: string)
    ensures '\n' !in r
  {
    Substitute(StripNewlines(repr))
  }

  /** `replace` works piecewise: removing newlines from a concatenation
      removes them from each part. */
  lemma {:induction false} StripNewlinesConcat(x: string, y: string)
    ensures StripNewlines(x + y) == StripNewlines(x) + StripNewlines(y)
    decreases |x|
  {
    if |x| > 0 {
      assert (x + y)[0] == x[0];
      assert (x + y)[1..] == x[1..] + y;
      StripNewlinesConcat(x[1..], y);
    } else {
      assert x + y == y;
    }
  }

  /** Removing newlines keeps only characters of the input. */
  lemma {:induction false} StripNewlinesWithin(s: string)
    ensures forall c :: c in StripNewlines(s) ==> c in s
    decreases |s|
  {
    if |s| > 0 {
      StripNewlinesWithin(s[1..]);
      assert forall c :: c in s[1..] ==> c in s;
    }
  }

  /** A run of class characters reaches exactly the first character outside
      the class. */
  lemma {:induction false} RunEndAt(s: string, i: nat, j: nat)
    requires i <= j < |s|
    requires forall k :: i <= k < j ==> InClass(s[k])
    requires !InClass(s[j])
    ensures RunEnd(s, i) == j
    decreases j - i
  {
    if i < j {
      RunEndAt(s, i + 1, j);
    }
  }

  /** A bracketed run of class characters is replaced by `[...]`, and
      scanning resumes right after its closing bracket. */
  lemma ElidesRun(v: string, rest: string)
    requires |v| > 0
    requires forall k :: 0 <= k < |v| ==> InClass(v[k])
    ensures Substitute("[" + v + "]" + rest) == Elided + Substitute(rest)
  {
    var s := "[" + v + "]" + rest;
    assert forall k :: 1 <= k < |v| + 1 ==> s[k] == v[k - 1];
    assert s[|v| + 1] == ']';
    RunEndAt(s, 1, |v| + 1);
    assert MatchesAtStart(s);
    assert s[|v| + 2..] == rest;
  }

  /** A run of class characters stops at the end of `a` when what follows
      is outside the class. */
  lemma {:induction false} RunEndConcat(a: string, b: string, i: nat)
    requires i <= |a| && |b| > 0 && !InClass(b[0])
    ensures RunEnd(a + b, i) == RunEnd(a, i)
    decreases |a| - i
  {
    if i < |a| {
      assert (a + b)[i] == a[i];
      if InClass(a[i]) {
        RunEndConcat(a, b, i + 1);
      }
    } else {
      assert (a + b)[i] == b[0];
    }
  }

  /** Text that starts with `[` cannot complete or extend a match that
      begins in `a`: a match at the start of `a + b` is a match at the
      start of `a`, ending at the same place. */
  lemma MatchBeforeBracket(a: string, b: string)
    requires |a| > 0 && |b| > 0 && b[0] == '['
    ensures MatchesAtStart(a + b) <==> MatchesAtStart(a)
    ensures MatchesAtStart(a) ==> RunEnd(a + b, 1) == RunEnd(a, 1)
  {
    var s := a + b;
    assert s[0] == a[0];
    RunEndConcat(a, b, 1);
    var e := RunEnd(a, 1);
    if e < |a| {
      assert s[e] == a[e];
    } else {
      assert s[e] == b[0];
    }
  }

  /** The substitution can be split in front of a `[`: no match runs into
      text that starts with `[`, because `[` is neither in the class nor
      the closing bracket. */
  lemma {:induction false} SubstituteSplit(a: string, b: string)
    requires |b| > 0 && b[0] == '['
    ensures Substitute(a + b) == Substitute(a) + Substitute(b)
    decreases |a|
  {
    if |a| == 0 {
      assert a + b == b;
    } else {
      MatchBeforeBracket(a, b);
      if MatchesAtStart(a) {
        var e := RunEnd(a, 1);
        assert (a + b)[e + 1..] == a[e + 1..] + b;
        SubstituteSplit(a[e + 1..], b);
      } else {
        assert (a + b)[0] == a[0];
        assert (a + b)[1..] == a[1..] + b;
        SubstituteSplit(a[1..], b);
      }
    }
  }

  /** Removing newlines around a bracketed vector removes them from each
      part separately. */
  lemma StripAround(before: string, v: string, after: string)
    ensures StripNewlines(before + "[" + v + "]" + after)
         == StripNewlines(before) + ("[" + StripNewlines(v) + "]" + StripNewlines(after))
  {
    var close := "]" + after;
    var inner := v + close;
    var open := "[" + inner;
    assert before + "[" + v + "]" + after == before + open;
    assert '\n' !in "[" && '\n' !in "]";
    StripNewlinesConcat("]", after);
    assert StripNewlines(close) == "]" + StripNewlines(after);
    StripNewlinesConcat(v, close);
    StripNewlinesConcat("[", inner);
    assert StripNewlines(open) == "[" + StripNewlines(v) + "]" + StripNewlines(after);
    StripNewlinesConcat(before, open);
  }

  /** A vector of class characters that is not all newlines is, once
      joined, a non-empty run of class characters. */
  lemma JoinedRun(v: string)
    requires forall k :: 0 <= k < |v| ==> InClass(v[k])
    requires exists k :: 0 <= k < |v| && v[k] != '\n'
    ensures |StripNewlines(v)| > 0
    ensures forall i :: 0 <= i < |StripNewlines(v)| ==> InClass(StripNewlines(v)[i])
  {
    var k :| 0 <= k < |v| && v[k] != '\n';
    var w := StripNewlines(v);
    assert v[k] in v;
    StripNewlinesWithin(v);
    forall i | 0 <= i < |w|
      ensures InClass(w[i])
    {
      assert w[i] in w;
    }
  }

  /** A printed numeric vector, over however many lines and wherever it
      stands in a rule's `repr`, is recorded as `[...]`: newlines (`\n`)
      are removed first, the text before the vector is redacted as usual,
      the joined vector is elided, and the text after it is redacted as a
      sample of its own. Only a vector with nothing but newlines inside
      keeps its brackets, because the pattern needs at least one
      character. */
  lemma ElidesVector(before: string, v: string, after: string)
    requires forall k :: 0 <= k < |v| ==> InClass(v[k])
    requires exists k :: 0 <= k < |v| && v[k] != '\n'
    ensures SampleText(before + "[" + v + "]" + after)
         == Substitute(StripNewlines(before)) + Elided + SampleText(after)
  {
    StripAround(before, v, after);
    JoinedRun(v);
    var w := StripNewlines(v);
    var tail := StripNewlines(after);
    SubstituteSplit(StripNewlines(before), "[" + w + "]" + tail);
    ElidesRun(w, tail);
  }
}

=== FILE: sorting.dfy ===
/** A stable sort into non-increasing key order, the behaviour of Python's
    `sorted(xs, key=key, reverse=True)`, and the prefix selection `[:n]`.

    Keys are `real`: the callers sort rule-firing counts and proof scores,
    and only the order of the keys matters. */
module Sorting {

  /** `s` is ordered non-increasingly by `key`. */
  ghost predicate SortedDesc<T>(s: seq<T>, key: T -> real) {
    forall i, j :: 0 <= i < j < |s| ==> key(s[i]) >= key(s[j])
  }

  /** The elements of `s` whose key is `k`, in their order in `s`. */
  function WithKey<T>(s: seq<T>, key: T -> real, k: real): seq<T>
    decreases |s|
  {
    if |s| == 0 then []
    else (if key(s[0]) == k then [s[0]] else []) + WithKey(s[1..], key, k)
  }

  /** Places `x` in front of the first element whose key does not exceed
      its own, so that `x` stays ahead of every element of equal key. */
  function Insert<T>(x: T, s: seq<T>, key: T -> real): (r: seq<T>)
    ensures multiset(r) == multiset(s) + multiset{x}
    ensures |r| == |s| + 1
    ensures r[0] == x || (|s| > 0 && r[0] == s[0])
    decreases |s|
  {
    if |s| == 0 || key(s[0]) <= key(x) then [x] + s
    else
      assert s == [s[0]] + s[1..];
      [s[0]] + Insert(x, s[1..], key)
  }

  lemma {:induction false} InsertSorted<T>(x: T, s: seq<T>, key: T -> real)
    requires SortedDesc(s, key)
    ensures SortedDesc(Insert(x, s, key), key)
    decreases |s|
  {
    if |s| > 0 && key(s[0]) > key(x) {
      var rest := Insert(x, s[1..], key);
      InsertSorted(x, s[1..], key);
      assert key(rest[0]) <= key(s[0]);
      assert Insert(x, s, key) == [s[0]] + rest;
    }
  }

  /** Insertion sort from the back: the first element is inserted last and
      therefore ends up ahead of every later element with the same key. */
  function SortDesc<T>(s: seq<T>, key: T -> real): (r: seq<T>)
    ensures SortedDesc(r, key)
    ensures multiset(r) == multiset(s)
    ensures |r| == |s|
    decreases |s|
  {
    if |s| == 0 then []
    else
      assert s == [s[0]] + s[1..];
      InsertSorted(s[0], SortDesc(s[1..], key), key);
      Insert(s[0], SortDesc(s[1..], key), key)
  }

  /** Python's `s[:n]`. */
  function Take<T>(s: seq<T>, n: nat): (r: seq<T>)
    ensures |r| == if |s| <= n then |s| else n
    ensures r == s[..|r|]
  {
    if |s| <= n then s else s[..n]
  }

  lemma {:induction false} WithKeyConcat<T>(a: seq<T>, b: seq<T>, key: T -> real, k: real)
    ensures WithKey(a + b, key, k) == WithKey(a, key, k) + WithKey(b, key, k)
    decreases |a|
  {
    if |a| == 0 {
      assert a + b == b;
    } else {
      var ab := a + b;
      assert ab[0] == a[0];
      assert ab[1..] == a[1..] + b;
      WithKeyCons(ab, key, k);
      WithKeyCons(a, key, k);
      WithKeyConcat(a[1..], b, key, k);
    }
  }

  /** Inserting `x` adds it in front of the elements of equal key and leaves
      the order of every key class otherwise unchanged. */
  lemma {:induction false} InsertWithKey<T>(x: T, s: seq<T>, key: T -> real, k: real)
    ensures WithKey(Insert(x, s, key), key, k)
         == (if key(x) == k then [x] else []) + WithKey(s, key, k)
    decreases |s|
  {
    if |s| == 0 || key(s[0]) <= key(x) {
      assert Insert(x, s, key) == [x] + s;
      WithKeyConcat([x], s, key, k);
      assert WithKey([x], key, k) == if key(x) == k then [x] else [];
    } else {
      InsertWithKey(x, s[1..], key, k);
      InsertPastHead(x, s, key, k);
    }
  }

  /** `WithKey` of a one-element sequence. */
  lemma WithKeySingle<T>(y: T, key: T -> real, k: real)
    ensures WithKey([y], key, k) == if key(y) == k then [y] else []
  {
    assert [y][1..] == [];
  }

  /** `WithKey` of a non-empty sequence, split at its head. */
  lemma WithKeyCons<T>(s: seq<T>, key: T -> real, k: real)
    requires |s| > 0
    ensures WithKey(s, key, k) == WithKey([s[0]], key, k) + WithKey(s[1..], key, k)
  {
    WithKeySingle(s[0], key, k);
  }

  /** The step of `InsertWithKey` where `x` moves past the head of `s`. */
  lemma InsertPastHead<T>(x: T, s: seq<T>, key: T -> real, k: real)
    requires |s| > 0 && key(s[0]) > key(x)
    requires WithKey(Insert(x, s[1..], key), key, k)
          == (if key(x) == k then [x] else []) + WithKey(s[1..], key, k)
    ensures WithKey(Insert(x, s, key), key, k)
         == (if key(x) == k then [x] else []) + WithKey(s, key, k)
  {
    var rest := Insert(x, s[1..], key);
    var whole := Insert(x, s, key);
    assert whole == [s[0]] + rest;
    assert whole[0] == s[0] && whole[1..] == rest;
    WithKeyCons(whole, key, k);
    WithKeyCons(s, key, k);
    WithKeySingle(s[0], key, k);
    if key(x) == k {
      assert WithKey([s[0]], key, k) == [];
      assert WithKey(whole, key, k) == WithKey(rest, key, k);
      assert WithKey(s, key, k) == WithKey(s[1..], key, k);
    } else {
      assert WithKey(rest, key, k) == WithKey(s[1..], key, k);
    }
  }

  /** Stability: among elements with the same key, the sorted sequence keeps
      the input order. */
  lemma {:induction false} SortDescStable<T>(s: seq<T>, key: T -> real, k: real)
    ensures WithKey(SortDesc(s, key), key, k) == WithKey(s, key, k)
    decreases |s|
  {
    if |s| > 0 {
      SortDescStable(s[1..], key, k);
      InsertWithKey(s[0], SortDesc(s[1..], key), key, k);
      WithKeyConcat([s[0]], s[1..], key, k);
      assert s == [s[0]] + s[1..];
    }
  }

  /** A sequence that opens with key `k` opens its `k` class too. */
  lemma WithKeyHead<T>(s: seq<T>, key: T -> real)
    requires |s| > 0
    ensures |WithKey(s, key, key(s[0]))| > 0 && WithKey(s, key, key(s[0]))[0] == s[0]
  {
  }

  /** The first element of a non-empty key class is the first element of
      `s` with that key. */
  lemma {:induction false} WithKeyFirst<T>(s: seq<T>, key: T -> real, k: real)
    requires |WithKey(s, key, k)| > 0
    ensures exists i :: 0 <= i < |s| && s[i] == WithKey(s, key, k)[0] && key(s[i]) == k
              && forall j :: 0 <= j < i ==> key(s[j]) != k
    decreases |s|
  {
    if key(s[0]) != k {
      WithKeyFirst(s[1..], key, k);
      var i :| 0 <= i < |s[1..]| && s[1..][i] == WithKey(s[1..], key, k)[0] && key(s[1..][i]) == k
               && forall j :: 0 <= j < i ==> key(s[1..][j]) != k;
      assert s[i + 1] == WithKey(s, key, k)[0];
      assert forall j :: 0 < j < i + 1 ==> key(s[j]) != k by {
        forall j | 0 < j < i + 1 ensures key(s[j]) != k {
          assert s[j] == s[1..][j - 1];
        }
      }
    } else {
      assert WithKey(s, key, k)[0] == s[0];
    }
  }

  /** The first `n` elements of the sorted sequence are a top-`n` selection:
      every element of `s` that was not selected has a key no larger than
      any selected one. */
  lemma {:induction false} TopPrefix<T>(s: seq<T>, key: T -> real, n: nat)
    ensures forall i, j :: 0 <= i < |Take(SortDesc(s, key), n)| && 0 <= j < |s|
              && s[j] !in Take(SortDesc(s, key), n)
              ==> key(s[j]) <= key(Take(SortDesc(s, key), n)[i])
  {
    var sorted := SortDesc(s, key);
    var r := Take(sorted, n);
    forall i, j | 0 <= i < |r| && 0 <= j < |s| && s[j] !in r
      ensures key(s[j]) <= key(r[i])
    {
      assert s[j] in multiset(s);
      assert s[j] in multiset(sorted);
      var m :| 0 <= m < |sorted| && sorted[m] == s[j];
      assert m >= |r|;
      assert r[i] == sorted[i];
    }
  }
}

=== FILE: stats.dfy ===
/** `SolverStats` of fuzzy_reasoner/meta/stats.py: the explosion monitor the
    resolution engine reports every rule firing to.

    The monitor is a record state and every call is a pure transition. The
    wall clock (`time.time()`) is the parameter `now` and the random draw
    (`random.randint(0, 50)`) is the parameter `draw`. Python mutates the
    object before an exception escapes, so a transition yields the state
    reached either way, tagged with the exception if one was raised. */
module Stats {
  import opened Wrappers
  import opened Terms
  import Sorting
  import Redact

  /** Top firings are recomputed only on every 10,000th fire. */
  const ReportEvery: nat := 10000
  /** Length of the top-firings list. */
  const TopCount: nat := 10
  /** The top count must exceed this for the explosion heuristic. */
  const ExplosionFloor: nat := 100000
  /** ... and exceed the runner-up's count by this factor. */
  const ExplosionRatio: nat := 50
  /** Seconds since the solve started after which a run is long. */
  const LongRunSeconds: real := 30.0
  /** The long-run heuristic needs more top firings than this. */
  const LongRunMinFirings: nat := 3
  /** The sample buffer is flushed once it holds this many samples. */
  const SampleBufferSize: nat := 10

  /** A value of `random.randint(0, 50)`; a sample is taken on 0. */
  type Draw = d: int | 0 <= d <= 50

  /** One `(predicate symbol, count)` item of `rule_stats`. */
  datatype Firing = Firing(symbol: Symbol, count: nat)

  function CountKey(f: Firing): real {
    f.count as real
  }

  /** The fields of `SolverStats` (the unused `pred_stats` is left out).
      `ruleStats` is the `defaultdict` as its item list in insertion order,
      which is the order `list(rule_stats.items())` yields. */
  datatype Stats = Stats(
    fires: nat,
    ruleStats: seq<Firing>,
    lastMsg: real,
    solveStartTime: real,
    printStatsPeriod: real,
    firings: seq<Firing>,
    sampleRules: seq<Symbol>,
    collectedRuleSamples: seq<string>)

  /** A fired rule together with its `repr`, the two things the monitor
      reads of it. */
  datatype Fired = Fired(rule: Rule, repr: string)

  /** The exceptions `check_debug` can raise: `IndexError` from
      `self.firings[0]` or `self.firings[1]`, `AttributeError` from
      `rule.head` when it is called without a rule. */
  datatype Error = IndexError | AttributeError

  datatype Outcome = Returned(state: Stats) | Raised(error: Error, state: Stats)

  // ---------------------------------------------------------------------
  // The per-predicate counter

  /** `rule_stats[sym]` read through the `defaultdict`: 0 when absent. */
  function Count(m: seq<Firing>, sym: Symbol): nat
    decreases |m|
  {
    if |m| == 0 then 0
    else if m[0].symbol == sym then m[0].count
    else Count(m[1..], sym)
  }

  function Symbols(m: seq<Firing>): set<Symbol> {
    set f | f in m :: f.symbol
  }

  /** A dictionary has each key once. */
  ghost predicate DistinctSymbols(m: seq<Firing>) {
    forall i, j :: 0 <= i < j < |m| ==> m[i].symbol != m[j].symbol
  }

  /** `rule_stats[sym] += 1`: an existing key keeps its place, a new key is
      appended with count 1, and no other key's count moves. */
  function Bump(m: seq<Firing>, sym: Symbol): (r: seq<Firing>)
    ensures Count(r, sym) == Count(m, sym) + 1
    ensures forall o :: o != sym ==> Count(r, o) == Count(m, o)
    ensures sym !in Symbols(m) ==> r == m + [Firing(sym, 1)]
    ensures sym in Symbols(m) ==> |r| == |m| && forall i :: 0 <= i < |m| ==> r[i].symbol == m[i].symbol
    decreases |m|
  {
    if |m| == 0 then [Firing(sym, 1)]
    else if m[0].symbol == sym then [Firing(sym, m[0].count + 1)] + m[1..]
    else
      SymbolsCons(m);
      var rest := Bump(m[1..], sym);
      [m[0]] + rest
  }

  lemma SymbolsCons(m: seq<Firing>)
    requires |m| > 0
    ensures Symbols(m) == {m[0].symbol} + Symbols(m[1..])
  {
    assert m == [m[0]] + m[1..];
  }

  /** Counting a firing adds its predicate to the keys and keeps the keys
      distinct. */
  lemma BumpKeys(m: seq<Firing>, sym: Symbol)
    ensures Symbols(Bump(m, sym)) == Symbols(m) + {sym}
    ensures DistinctSymbols(m) ==> DistinctSymbols(Bump(m, sym))
  {
    var r := Bump(m, sym);
    if sym in Symbols(m) {
      forall x | x in Symbols(r) ensures x in Symbols(m) {
        var f :| f in r && f.symbol == x;
        var i :| 0 <= i < |r| && r[i] == f;
        assert m[i] in m;
      }
      forall x | x in Symbols(m) ensures x in Symbols(r) {
        var f :| f in m && f.symbol == x;
        var i :| 0 <= i < |m| && m[i] == f;
        assert r[i] in r;
      }
    } else {
      assert r == m + [Firing(sym, 1)];
      assert Firing(sym, 1) in r;
      forall x | x in Symbols(r) ensures x in Symbols(m) + {sym} {
        var f :| f in r && f.symbol == x;
        var i :| 0 <= i < |r| && r[i] == f;
        if i < |m| { assert m[i] in m; }
      }
      forall x | x in Symbols(m) ensures x in Symbols(r) {
        var f :| f in m && f.symbol == x;
        var i :| 0 <= i < |m| && m[i] == f;
        assert r[i] in r;
      }
      if DistinctSymbols(m) {
        forall i, j | 0 <= i < j < |r| ensures r[i].symbol != r[j].symbol {
          if j == |m| {
            assert m[i] in m;
          }
        }
      }
    }
  }

  // ---------------------------------------------------------------------
  // The top-firings snapshot

  /** `sorted(rule_stats.items(), key=count, reverse=True)[:10]`. */
  function TopFirings(m: seq<Firing>): (r: seq<Firing>)
    ensures |r| == if |m| < TopCount then |m| else TopCount
    ensures Sorting.SortedDesc(r, CountKey)
    ensures multiset(r) <= multiset(m)
    ensures forall i, j :: 0 <= i < |r| && 0 <= j < |m| && m[j] !in r ==> m[j].count <= r[i].count
  {
    var sorted := Sorting.SortDesc(m, CountKey);
    var r := Sorting.Take(sorted, TopCount);
    Sorting.TopPrefix(m, CountKey, TopCount);
    assert sorted == r + sorted[|r|..];
    assert multiset(sorted) == multiset(r) + multiset(sorted[|r|..]);
    r
  }

  /** Reading `firings[0]`, and `firings[1]` once the top count exceeds the
      explosion floor, fails on a list that is too short. */
  predicate TopMissing(firings: seq<Firing>) {
    |firings| == 0 || (firings[0].count > ExplosionFloor && |firings| < 2)
  }

  predicate Exploding(firings: seq<Firing>)
    requires !TopMissing(firings)
  {
    firings[0].count > ExplosionFloor && firings[1].count * ExplosionRatio < firings[0].count
  }

  predicate LongRunning(firings: seq<Firing>, elapsed: real) {
    elapsed > LongRunSeconds && |firings| > LongRunMinFirings
  }

  /** The predicates the two heuristics flag for sampling, in the order
      they are appended, or `None` when the explosion test indexes past the
      end of `firings`. */
  function NewFlags(firings: seq<Firing>, elapsed: real): (r: Option<seq<Symbol>>)
    ensures r.None? <==> TopMissing(firings)
    ensures r.Some? && Exploding(firings) ==> |r.value| > 0 && r.value[0] == firings[0].symbol
    ensures r.Some? && LongRunning(firings, elapsed) ==>
      |r.value| >= 3 && r.value[|r.value| - 3..] == [firings[0].symbol, firings[1].symbol, firings[2].symbol]
    ensures r.Some? ==> |r.value| == (if Exploding(firings) then 1 else 0) + (if LongRunning(firings, elapsed) then 3 else 0)
    ensures r.Some? ==> forall f :: f in r.value ==> exists i :: 0 <= i < 3 && i < |firings| && firings[i].symbol == f
  {
    if TopMissing(firings) then None
    else
      var explosion := if Exploding(firings) then [firings[0].symbol] else [];
      var longRun := if LongRunning(firings, elapsed)
        then [firings[0].symbol, firings[1].symbol, firings[2].symbol] else [];
      Some(explosion + longRun)
  }

  // ---------------------------------------------------------------------
  // Sampling

  /** One sample per occurrence of the fired rule's predicate among the
      flagged predicates, all with the same redacted text. */
  function Samples(flags: seq<Symbol>, fired: Fired): (r: seq<string>)
    ensures |r| == multiset(flags)[fired.rule.HeadSymbol()]
    ensures forall i :: 0 <= i < |r| ==> r[i] == Redact.SampleText(fired.repr)
    decreases |flags|
  {
    if |flags| == 0 then []
    else
      assert flags == [flags[0]] + flags[1..];
      (if flags[0] == fired.rule.HeadSymbol() then [Redact.SampleText(fired.repr)] else [])
      + Samples(flags[1..], fired)
  }

  /** The buffer was flushed: flags, samples and all counters are gone. */
  predicate Flushed(s: Stats) {
    s.sampleRules == [] && s.collectedRuleSamples == [] && s.ruleStats == []
  }

  /** The samples one call appends to the buffer before the flush test. */
  function Drawn(s: Stats, rule: Option<Fired>, draw: Draw): seq<string> {
    if |s.sampleRules| > 0 && draw == 0 && rule.Some? then Samples(s.sampleRules, rule.value) else []
  }

  /** The sampling tail of `check_debug`: sample the fired rule when its
      predicate is flagged and the draw is 0, then flush once ten samples
      are buffered. */
  function SampleStep(s: Stats, rule: Option<Fired>, draw: Draw): (r: Outcome)
    ensures r.Raised? <==> |s.sampleRules| > 0 && draw == 0 && rule.None?
    ensures r.Raised? ==> r == Raised(AttributeError, s)
    ensures r.state.fires == s.fires && r.state.lastMsg == s.lastMsg && r.state.firings == s.firings
    ensures r.state.solveStartTime == s.solveStartTime && r.state.printStatsPeriod == s.printStatsPeriod
    ensures r.Returned? && |s.sampleRules| > 0 && |s.collectedRuleSamples + Drawn(s, rule, draw)| >= SampleBufferSize
      ==> Flushed(r.state)
    ensures r.Returned? && !(|s.sampleRules| > 0 && |s.collectedRuleSamples + Drawn(s, rule, draw)| >= SampleBufferSize)
      ==> r.state == s.(collectedRuleSamples := s.collectedRuleSamples + Drawn(s, rule, draw))
    ensures |s.collectedRuleSamples| < SampleBufferSize ==> |r.state.collectedRuleSamples| < SampleBufferSize
  {
    if |s.sampleRules| == 0 then Returned(s)
    else if draw == 0 && rule.None? then Raised(AttributeError, s)
    else
      var collected := s.collectedRuleSamples + Drawn(s, rule, draw);
      if |collected| >= SampleBufferSize then
        Returned(s.(sampleRules := [], collectedRuleSamples := [], ruleStats := []))
      else
        Returned(s.(collectedRuleSamples := collected))
  }

  // ---------------------------------------------------------------------
  // check_debug and rule_fired

  /** The opening of `check_debug`: start the solve clock on the first
      fire, then count the fire. */
  function Tick(s: Stats, now: real): (r: Stats)
    ensures r.fires == s.fires + 1
    ensures s.fires == 0 ==> r.solveStartTime == now
    ensures s.fires > 0 ==> r.solveStartTime == s.solveStartTime
    ensures r == s.(fires := r.fires, solveStartTime := r.solveStartTime)
  {
    s.(fires := s.fires + 1, solveStartTime := if s.fires == 0 then now else s.solveStartTime)
  }

  /** The recomputation guard of `check_debug`, read on the state after
      the tick: the fire count is a multiple of 10,000 and more than one
      period has passed since the last recomputation. */
  predicate Due(s: Stats, now: real) {
    s.fires % ReportEvery == 0 && now - s.lastMsg > s.printStatsPeriod
  }

  /** The call that sees `s` at time `now` recomputes the top firings. */
  predicate ReportDue(s: Stats, now: real) {
    Due(Tick(s, now), now)
  }

  /** The report part of `check_debug`, on the state after the tick:
      recompute the top firings
      when due and let the two heuristics flag predicates. */
  function Report(s: Stats, now: real): (r: Outcome)
    ensures !Due(s, now) ==> r == Returned(s)
    ensures Due(s, now) ==> r.state.lastMsg == now && r.state.firings == TopFirings(s.ruleStats)
    ensures r.Raised? <==> Due(s, now) && TopMissing(TopFirings(s.ruleStats))
    ensures r.Raised? ==> r.error == IndexError
    ensures r.Raised? ==> r.state.sampleRules == s.sampleRules
    ensures r.state == s.(lastMsg := r.state.lastMsg, firings := r.state.firings, sampleRules := r.state.sampleRules)
    ensures s.sampleRules <= r.state.sampleRules
    ensures Due(s, now) && !TopMissing(TopFirings(s.ruleStats)) ==>
      r.state.sampleRules == s.sampleRules + NewFlags(TopFirings(s.ruleStats), now - s.solveStartTime).value
    ensures |r.state.firings| <= TopCount || r.state.firings == s.firings
    ensures Sorting.SortedDesc(r.state.firings, CountKey) || r.state.firings == s.firings
  {
    if !Due(s, now) then Returned(s)
    else
      var firings := TopFirings(s.ruleStats);
      var stamped := s.(firings := firings, lastMsg := now);
      match NewFlags(firings, now - s.solveStartTime)
      case None => Raised(IndexError, stamped)
      case Some(flags) => Returned(stamped.(sampleRules := s.sampleRules + flags))
  }

  /** The invariant of every state the monitor can reach. */
  ghost predicate Valid(s: Stats) {
    && DistinctSymbols(s.ruleStats)
    && |s.firings| <= TopCount
    && Sorting.SortedDesc(s.firings, CountKey)
    && |s.collectedRuleSamples| < SampleBufferSize
    && (forall i :: 0 <= i < |s.collectedRuleSamples| ==> '\n' !in s.collectedRuleSamples[i])
  }

  /** `check_debug(rule)`. */
  function CheckDebug(s: Stats, rule: Option<Fired>, now: real, draw: Draw): (r: Outcome)
    ensures r.state.fires == s.fires + 1
    ensures r.state.solveStartTime == if s.fires == 0 then now else s.solveStartTime
    ensures r.state.printStatsPeriod == s.printStatsPeriod
    ensures ReportDue(s, now) ==> r.state.lastMsg == now && r.state.firings == TopFirings(s.ruleStats)
    ensures !ReportDue(s, now) ==> r.state.lastMsg == s.lastMsg && r.state.firings == s.firings
    ensures rule.Some? ==> (r.Raised? <==> ReportDue(s, now) && TopMissing(TopFirings(s.ruleStats)))
    ensures (r.Raised? && r.error == IndexError) <==> ReportDue(s, now) && TopMissing(TopFirings(s.ruleStats))
    ensures r.Raised? && r.error == AttributeError ==> rule.None? && draw == 0
    ensures (rule.None? && draw == 0 && |s.sampleRules| > 0
             && !(ReportDue(s, now) && TopMissing(TopFirings(s.ruleStats)))) ==>
      r == Raised(AttributeError, r.state)
    ensures Flushed(r.state) || r.state.ruleStats == s.ruleStats
    ensures |s.collectedRuleSamples| < SampleBufferSize ==> |r.state.collectedRuleSamples| < SampleBufferSize
  {
    var ticked := Tick(s, now);
    assert Due(ticked, now) == ReportDue(s, now);
    match Report(ticked, now)
    case Raised(e, st) => Raised(e, st)
    case Returned(st) => SampleStep(st, rule, draw)
  }

  /** After `rule_fired` counts a firing, the explosion test can index past
      the end of the top firings only when the fired predicate is the only
      one counted and its count exceeds the explosion floor. */
  lemma BumpedTopMissing(m: seq<Firing>, sym: Symbol)
    ensures DistinctSymbols(m) ==>
      (TopMissing(TopFirings(Bump(m, sym))) <==> Symbols(m) <= {sym} && Count(m, sym) + 1 > ExplosionFloor)
  {
    if !DistinctSymbols(m) { return; }
    BumpKeys(m, sym);
    var b := Bump(m, sym);
    var t := TopFirings(b);
    SingleKey(m, sym);
    if |b| == 1 {
      SingletonTop(b);
      assert b[0].symbol == sym by {
        assert sym in Symbols(b);
      }
      assert Count(b, sym) == b[0].count;
    }
  }

  lemma SingleKey(m: seq<Firing>, sym: Symbol)
    requires DistinctSymbols(m)
    ensures |Bump(m, sym)| == 1 <==> Symbols(m) <= {sym}
  {
    if Symbols(m) <= {sym} && |m| >= 2 {
      assert m[0].symbol in Symbols(m) && m[1].symbol in Symbols(m);
    }
    if |m| == 1 {
      assert m[0].symbol in Symbols(m);
      assert Symbols(m) == {m[0].symbol};
    }
  }

  lemma SingletonTop(b: seq<Firing>)
    requires |b| == 1
    ensures TopFirings(b) == b
  {
    var t := TopFirings(b);
    assert |t| == 1;
    assert t[0] in multiset(b);
  }

  /** `rule_fired(rule)`: count the firing under the head's predicate
      symbol, then run `check_debug`. */
  function RuleFired(s: Stats, fired: Fired, now: real, draw: Draw): (r: Outcome)
    ensures r.state.fires == s.fires + 1
    ensures r.state.printStatsPeriod == s.printStatsPeriod
    ensures r.state.lastMsg == if ReportDue(s, now) then now else s.lastMsg
    ensures r.Raised? ==> r.error == IndexError
    ensures DistinctSymbols(s.ruleStats) ==>
      (r.Raised? <==> ReportDue(s, now) && Symbols(s.ruleStats) <= {fired.rule.HeadSymbol()}
                      && Count(s.ruleStats, fired.rule.HeadSymbol()) + 1 > ExplosionFloor)
    ensures Flushed(r.state) || (
      && Count(r.state.ruleStats, fired.rule.HeadSymbol()) == Count(s.ruleStats, fired.rule.HeadSymbol()) + 1
      && forall o :: o != fired.rule.HeadSymbol() ==> Count(r.state.ruleStats, o) == Count(s.ruleStats, o))
  {
    var bumped := s.(ruleStats := Bump(s.ruleStats, fired.rule.HeadSymbol()));
    BumpedDue(s, fired.rule.HeadSymbol(), now);
    CheckDebug(bumped, Some(fired), now, draw)
  }

  /** Counting a firing changes neither the recomputation guard nor the
      timestamps, and the index error after it is the single-predicate
      explosion. */
  lemma BumpedDue(s: Stats, sym: Symbol, now: real)
    ensures ReportDue(s.(ruleStats := Bump(s.ruleStats, sym)), now) == ReportDue(s, now)
    ensures DistinctSymbols(s.ruleStats) ==>
      (TopMissing(TopFirings(Bump(s.ruleStats, sym))) <==>
         Symbols(s.ruleStats) <= {sym} && Count(s.ruleStats, sym) + 1 > ExplosionFloor)
  {
    BumpedTopMissing(s.ruleStats, sym);
  }

  /** `SolverStats(print_stats_period)` constructed at time `now`. */
  function Init(printStatsPeriod: real, now: real): (s: Stats)
    ensures Valid(s)
    ensures s.fires == 0 && forall p :: Count(s.ruleStats, p) == 0
    ensures s.sampleRules == [] && s.collectedRuleSamples == []
    ensures s.printStatsPeriod == printStatsPeriod
    ensures s.lastMsg == now && s.solveStartTime == now
    ensures s.firings == [] && s.ruleStats == []
  {
    Stats(0, [], now, now, printStatsPeriod, [], [], [])
  }

  /** The default period of `SolverStats()`, in seconds. */
  const DefaultPeriod: real := 1.0

  /** `SolverStats()` constructed at time `now`: a new monitor whose
      recomputations are at least one second apart. */
  function DefaultStats(now: real): (s: Stats)
    ensures Valid(s) && s.fires == 0 && forall p :: Count(s.ruleStats, p) == 0
    ensures s.sampleRules == [] && s.collectedRuleSamples == [] && s.firings == []
    ensures s.ruleStats == [] && s.printStatsPeriod == 1.0
    ensures s.lastMsg == now && s.solveStartTime == now
  {
    Init(DefaultPeriod, now)
  }

  // ---------------------------------------------------------------------
  // Properties of the transitions

  /** Every transition keeps the monitor's invariant. */
  lemma CheckDebugKeepsValid(s: Stats, rule: Option<Fired>, now: real, draw: Draw)
    requires Valid(s)
    ensures Valid(CheckDebug(s, rule, now, draw).state)
  {
    var ticked := Tick(s, now);
    assert Valid(ticked);
    var reported := Report(ticked, now);
    assert Valid(reported.state);
    if reported.Returned? {
      var st := reported.state;
      var drawn := Drawn(st, rule, draw);
      assert forall i :: 0 <= i < |drawn| ==> '\n' !in drawn[i];
      var r := SampleStep(st, rule, draw);
      assert r.state.collectedRuleSamples == [] || r.state.collectedRuleSamples == st.collectedRuleSamples + drawn;
      assert DistinctSymbols(r.state.ruleStats);
    }
  }

  lemma RuleFiredKeepsValid(s: Stats, fired: Fired, now: real, draw: Draw)
    requires Valid(s)
    ensures Valid(RuleFired(s, fired, now, draw).state)
  {
    BumpKeys(s.ruleStats, fired.rule.HeadSymbol());
    CheckDebugKeepsValid(s.(ruleStats := Bump(s.ruleStats, fired.rule.HeadSymbol())), Some(fired), now, draw);
  }

  /** Whatever the heuristics flag in a call that recomputes the top
      firings ends up among the flagged predicates, unless that call fills
      the sample buffer and so clears every flag. */
  lemma FlagsReachSampling(s: Stats, fired: Fired, now: real, draw: Draw)
    requires ReportDue(s, now) && !TopMissing(TopFirings(s.ruleStats))
    ensures CheckDebug(s, Some(fired), now, draw).Returned?
    ensures var flags := NewFlags(TopFirings(s.ruleStats), now - Tick(s, now).solveStartTime).value;
      (forall f :: f in flags ==> f in CheckDebug(s, Some(fired), now, draw).state.sampleRules)
      || Flushed(CheckDebug(s, Some(fired), now, draw).state)
  {
    var ticked := Tick(s, now);
    assert Due(ticked, now);
    var reported := Report(ticked, now);
    var flags := NewFlags(TopFirings(s.ruleStats), now - ticked.solveStartTime).value;
    assert reported.Returned?;
    assert reported.state.sampleRules == s.sampleRules + flags;
    var r := SampleStep(reported.state, Some(fired), draw);
    assert CheckDebug(s, Some(fired), now, draw) == r;
    assert !Flushed(r.state) ==> r.state.sampleRules == reported.state.sampleRules;
  }

  /** The explosion heuristic: when the recomputed top predicate has fired
      more than 100,000 times and more than 50 times as often as the
      runner-up, it is flagged for sampling, unless the same call fills the
      sample buffer and so clears every flag. */
  lemma ExplosionStartsSampling(s: Stats, fired: Fired, now: real, draw: Draw)
    requires ReportDue(s, now)
    requires |TopFirings(s.ruleStats)| >= 2
    requires TopFirings(s.ruleStats)[0].count > ExplosionFloor
    requires TopFirings(s.ruleStats)[1].count * ExplosionRatio < TopFirings(s.ruleStats)[0].count
    ensures CheckDebug(s, Some(fired), now, draw).Returned?
    ensures TopFirings(s.ruleStats)[0].symbol in CheckDebug(s, Some(fired), now, draw).state.sampleRules
         || Flushed(CheckDebug(s, Some(fired), now, draw).state)
  {
    var t := TopFirings(s.ruleStats);
    FlagsReachSampling(s, fired, now, draw);
    ExplosionFlagsTop(t, now - Tick(s, now).solveStartTime);
  }

  lemma ExplosionFlagsTop(t: seq<Firing>, elapsed: real)
    requires !TopMissing(t) && Exploding(t)
    ensures t[0].symbol in NewFlags(t, elapsed).value
  {
    assert NewFlags(t, elapsed).value[0] == t[0].symbol;
  }

  /** The long-run heuristic: once more than 30 seconds have passed since
      the solve started and more than three predicates are in the top
      firings, the top three are flagged for sampling, unless the same call
      fills the sample buffer and so clears every flag. */
  lemma LongRunStartsSampling(s: Stats, fired: Fired, now: real, draw: Draw)
    requires ReportDue(s, now)
    requires now - (if s.fires == 0 then now else s.solveStartTime) > LongRunSeconds
    requires |TopFirings(s.ruleStats)| > LongRunMinFirings
    ensures CheckDebug(s, Some(fired), now, draw).Returned?
    ensures (forall i :: 0 <= i < 3 ==> TopFirings(s.ruleStats)[i].symbol in CheckDebug(s, Some(fired), now, draw).state.sampleRules)
         || Flushed(CheckDebug(s, Some(fired), now, draw).state)
  {
    var t := TopFirings(s.ruleStats);
    FlagsReachSampling(s, fired, now, draw);
    LongRunFlagsTopThree(t, now - Tick(s, now).solveStartTime);
  }

  lemma LongRunFlagsTopThree(t: seq<Firing>, elapsed: real)
    requires !TopMissing(t) && LongRunning(t, elapsed)
    ensures forall i :: 0 <= i < 3 ==> t[i].symbol in NewFlags(t, elapsed).value
  {
    var flags := NewFlags(t, elapsed).value;
    var tail := flags[|flags| - 3..];
    assert tail == [t[0].symbol, t[1].symbol, t[2].symbol];
    forall i | 0 <= i < 3 ensures t[i].symbol in flags {
      assert tail[i] == flags[|flags| - 3 + i];
    }
  }

  // ---------------------------------------------------------------------
  // Runs of several firings

  /** One `rule_fired` call: the rule, its `repr`, the clock and the draw. */
  datatype Event = Event(fired: Fired, now: real, draw: Draw)

  /** Where a run of firings ends, and the clock readings at which it
      recomputed the top firings. */
  datatype Run = Run(outcome: Outcome, reports: seq<real>)

  /** Feed `events` to `rule_fired` one after another, stopping at the first
      exception. */
  function RunEvents(s: Stats, events: seq<Event>): (r: Run)
    decreases |events|
  {
    if |events| == 0 then Run(Returned(s), [])
    else
      var e := events[0];
      var o := RuleFired(s, e.fired, e.now, e.draw);
      var stamp := if ReportDue(s, e.now) then [e.now] else [];
      if o.Raised? then Run(o, stamp)
      else
        var rest := RunEvents(o.state, events[1..]);
        Run(rest.outcome, stamp + rest.reports)
  }

  /** The clock readings `reports` are each more than `period` after the
      one before, the first more than `period` after `last`. */
  ghost predicate Spaced(reports: seq<real>, last: real, period: real) {
    && (|reports| > 0 ==> reports[0] - last > period)
    && forall k :: 0 <= k < |reports| - 1 ==> reports[k + 1] - reports[k] > period
  }

  lemma SpacedCons(t: real, rest: seq<real>, last: real, period: real)
    requires t - last > period && Spaced(rest, t, period)
    ensures Spaced([t] + rest, last, period)
  {
    var all := [t] + rest;
    forall k | 0 <= k < |all| - 1
      ensures all[k + 1] - all[k] > period
    {
      if k > 0 {
        assert all[k + 1] == rest[k] && all[k] == rest[k - 1];
      }
    }
  }

  /** Rate limiting: over any run, the first recomputation comes more than
      one period after the last one recorded in the starting state, and each
      later one more than one period after the one before it. */
  lemma {:induction false} RateLimited(s: Stats, events: seq<Event>)
    ensures Spaced(RunEvents(s, events).reports, s.lastMsg, s.printStatsPeriod)
    decreases |events|
  {
    if |events| > 0 {
      var e := events[0];
      var o := RuleFired(s, e.fired, e.now, e.draw);
      if o.Returned? {
        RateLimited(o.state, events[1..]);
        var rest := RunEvents(o.state, events[1..]).reports;
        assert o.state.printStatsPeriod == s.printStatsPeriod;
        if ReportDue(s, e.now) {
          assert RunEvents(s, events).reports == [e.now] + rest;
          SpacedCons(e.now, rest, s.lastMsg, s.printStatsPeriod);
        } else {
          assert RunEvents(s, events).reports == [] + rest;
          assert [] + rest == rest;
        }
      }
    }
  }

  /** The invariant holds in every state a run reaches. */
  lemma {:induction false} RunKeepsValid(s: Stats, events: seq<Event>)
    requires Valid(s)
    ensures Valid(RunEvents(s, events).outcome.state)
    decreases |events|
  {
    if |events| > 0 {
      var e := events[0];
      RuleFiredKeepsValid(s, e.fired, e.now, e.draw);
      var o := RuleFired(s, e.fired, e.now, e.draw);
      if o.Returned? {
        RunKeepsValid(o.state, events[1..]);
      }
    }
  }
}

=== FILE: terms.dfy ===
/** The logic terms the prover and the monitor handle. The term, atom and
    rule classes of the repository are not part of this model; these
    datatypes stand in for them and keep only what the modelled code reads:
    structural equality (so rules can live in a set), the predicate symbol
    of a rule's head, and a rule's head and body. */
module Terms {

  type Symbol = string

  datatype Term = Constant(symbol: Symbol) | Variable(name: string)

  datatype Predicate = Predicate(symbol: Symbol)

  /** A predicate applied to an ordered list of argument terms. */
  datatype Atom = Atom(pred: Predicate, terms: seq<Term>)

  /** A Horn clause: `head` holds if every atom of `body` holds. */
  datatype Rule = Rule(head: Atom, body: seq<Atom>) {
    /** The symbol the solver statistics count firings under. */
    function HeadSymbol(): Symbol {
      head.pred.symbol
    }
  }

  /** `Rule(atom)`: a rule with an empty body. */
  function Fact(a: Atom): Rule
  {
    Rule(a, [])
  }
}

=== FILE: wrappers.dfy ===
/** Python's `Optional[T]`: a value or `None`. */
module Wrappers {

  datatype Option<+T> = None | Some(value: T)
}
